=== FILE: README.md ===
# Corpus statistics and response post-processing, modelled in Dafny

This project models the pure text logic of a small natural-language-to-SQL
homework repository:

- **Corpus measurement** (`analyze_dataset.py`):
  - `read_lines` strips every line of a corpus file and drops the blank ones.
  - `tokenize_len_and_vocab` prefixes, tokenizes and truncates each line. It
    returns the mean token length and the size of the token vocabulary.
  - The subword tokenizer is an uninterpreted function
    `tok: string -> seq<string>`, passed as a parameter.
  - The mean is kept exact, as the pair (total length, line count) in
    `Corpus.Measurement`. `Corpus.MeanLength` turns that pair into a rational.
    `statistics.mean` returns that value exactly as an `int` when it is a
    whole number, and otherwise rounds it to the nearest float.
- **Schema parsing** (`prompting_utils.py`, `read_schema`): lines of the form
  `name(col, col, ...)` become a map from table name to column list. Other
  lines are skipped, and a later definition of a table replaces an earlier one.
- **SQL extraction** (`prompting_utils.py`, `extract_sql_query`): the answer
  is chosen by three tiers, and the first that matches wins:
  1. the body of the first `sql`-tagged fenced block;
  2. otherwise the first `SELECT ...;` span;
  3. otherwise the whole response.

  The chosen text is then flattened onto one line and stripped.

The two regular expressions of `read_schema` and `extract_sql_query` are
modelled as the searches they perform:

- `re.match(r'(\w+)\((.*?)\)')` is anchored at the start of the line. `\w+`
  takes the maximal run of word characters. The lazy group stops at the first
  `)`. A newline before that `)` defeats the match, because `.` does not match
  a newline without `DOTALL`.
- The two `re.search` calls pick the leftmost start at which a match exists.
  Each lazy body stops at the first closing fence, or at the first `;`,
  after the opening text.

**Assumption: `re` is imported.** `prompting_utils.py` imports only `os`.
As the file stands, both functions raise `NameError` as soon as they reach
`re`. Modules `Schema` and `Extract` model the evidently intended behaviour,
with `re` imported. Module `AsWritten` models the file as it stands and
relates the two (see Findings).

Files, one module each:

| file | module | contents |
|---|---|---|
| `options.dfy` | `Options` | `Option` and `Result` |
| `text.dfy` | `Text` | Python `str` operations: `strip`, `split`, `replace`, `find`, ASCII case-insensitive literal search |
| `corpus.dfy` | `Corpus` | `read_lines` and `tokenize_len_and_vocab` |
| `schema.dfy` | `Schema` | `read_schema` |
| `extract.dfy` | `Extract` | `extract_sql_query` |
| `as_written.dfy` | `AsWritten` | both functions of `prompting_utils.py` as written, without `import re` |
| `scenarios.dfy` | `Scenarios` | a worked example response |

Edge cases worth knowing:

- With `max_len = 0`, a non-empty corpus has a vocabulary of 0 tokens
  (`Corpus.ZeroMaxLen`).
- As written, the extractor raises `NameError` on every non-empty response
  (see Findings).
- A schema line may carry any text after its first `)`.
  `Schema.MatchHeaderComplete` covers that case.

## Model

| member | source | states |
|---|---|---|
| Text.Strip | analyze_dataset.py:10 | `str.strip()`: the result has no surrounding whitespace and is no longer than the input. It is empty exactly when the input is all whitespace, and text already stripped is returned unchanged |
| Text.StripIsTrim | analyze_dataset.py:10 | the stripped text is a contiguous slice of the input, with only whitespace cut off at either end |
| Text.StripUnique | analyze_dataset.py:10 | any slice that leaves only whitespace outside and has none at its ends is exactly what `strip()` returns |
| Text.Split | prompting_utils.py:19 | `str.split(',')`: at least one piece, no piece holds the separator, and joining the pieces with the separator gives back the input |
| Text.SplitCount | prompting_utils.py:19 | the number of pieces is the number of separators plus one |
| Text.SplitJoin | prompting_utils.py:19 | splitting a join of separator-free pieces gives back exactly those pieces |
| Text.ReplaceChar | prompting_utils.py:36 | `replace("\n", " ")`: same length, every newline becomes a space, every other character is kept, no newline remains, and text without a newline is unchanged |
| Text.IndexOfFrom | prompting_utils.py:34 | the first position at or after `i` that holds the character, or none when no later position holds it |
| Text.FindFrom | prompting_utils.py:30 | the leftmost position at or after `i` where the literal occurs, ignoring ASCII case, or none when it occurs nowhere later |
| Corpus.ReadLines | analyze_dataset.py:10 | the result is never longer than the input |
| Corpus.ReadLinesClean | analyze_dataset.py:10 | every returned line is non-empty and has no surrounding whitespace |
| Corpus.ReadLinesMembership | analyze_dataset.py:10 | a string is returned exactly when it is non-empty and is the stripped form of some input line |
| Corpus.ReadLinesAppend | analyze_dataset.py:10 | lines are handled one at a time and in order: reading a concatenation gives the concatenation of the readings |
| Corpus.ReadLinesIdempotent | analyze_dataset.py:10 | reading the output again changes nothing |
| Corpus.SliceStop | analyze_dataset.py:20 | the stop of `toks[:m]` is `min(n, m)` for `m >= 0`, `max(0, n + m)` for a negative `m`, and never past the end |
| Corpus.Truncate | analyze_dataset.py:19-20 | the result is a prefix of the tokens. It is all of them without `max_len`, `min(len, m)` of them for `m >= 0`, and all but the last `-m` for negative `m` |
| Corpus.ApplyPrefix | analyze_dataset.py:16-17 | an absent or empty prefix leaves the line unchanged, because of the truthiness test |
| Corpus.TokenizeLine | analyze_dataset.py:16-20 | one iteration's token list is a prefix of the tokens of the prefixed line and equals the reference `LineTokens` |
| Corpus.Lengths | analyze_dataset.py:21 | one recorded length per line |
| Corpus.LineLengths | analyze_dataset.py:18-21 | each recorded length is at most the tokenizer's count for the prefixed line. It equals that count without `max_len`, and `min(count, m)` with `max_len = m >= 0` |
| Corpus.TokenizeLenAndVocab | analyze_dataset.py:12-23 | one counted line per input line. An empty corpus gives total 0 and vocabulary 0. The vocabulary is never larger than the total token count |
| Corpus.MeasureCorpus | analyze_dataset.py:12-23 | the loop, which appends a length and updates the vocabulary per line, computes exactly the reference measurement |
| Corpus.MeanLength | analyze_dataset.py:23 | `mean(lens) if lens else 0.0`, kept exact: 0.0 when no line was measured; `Corpus.MeanTimesLineCount` gives mean times count equals total otherwise |
| Corpus.EmptyCorpus | analyze_dataset.py:23 | an empty corpus yields mean 0.0 and vocabulary size 0 |
| Corpus.MeanTimesLineCount | analyze_dataset.py:21-23 | one length is recorded per line, and the mean times the number of lines is the sum of the recorded lengths |
| Corpus.MeanWithinMaxLen | analyze_dataset.py:19-23 | with `max_len = m >= 0` the mean lies in `[0, m]` |
| Corpus.Vocab | analyze_dataset.py:14-22 | every line's truncated tokens are in the vocabulary, and an empty corpus has none; `Corpus.VocabMembership` gives the converse |
| Corpus.VocabMembership | analyze_dataset.py:22 | a token is in the vocabulary exactly when some line's truncated token list holds it |
| Corpus.VocabSizeBound | analyze_dataset.py:21-23 | the vocabulary size is at most the sum of the per-line lengths |
| Corpus.TruncationShrinksVocab | analyze_dataset.py:19-22 | the vocabulary with any `max_len` is a subset of the vocabulary without one |
| Corpus.TruncationShrinksMeasurement | analyze_dataset.py:19-23 | truncation never increases the total length, the mean or the vocabulary size |
| Corpus.ZeroMaxLen | analyze_dataset.py:19-23 | `max_len = 0` still truncates (the test is `is not None`): total 0 and vocabulary 0 for any corpus |
| Corpus.EmptyPrefixIsNoPrefix | analyze_dataset.py:16-17 | an empty-string prefix measures exactly like no prefix |
| Corpus.EmptyPrefixLines | analyze_dataset.py:16-22 | an empty-string prefix gives the same lengths and the same vocabulary as no prefix |
| Schema.WordRunFrom | prompting_utils.py:16 | the `\w+` run: every character in it is a word character, and the character after it is not |
| Schema.MatchHeader | prompting_utils.py:16-18 | on success, the name is a non-empty word, the body has no `)` and no newline, and the line begins with `name(body)` |
| Schema.MatchHeaderComplete | prompting_utils.py:16-18 | every line of the form `name(body)rest` (name a word, body free of `)` and newlines) is matched with exactly those groups |
| Schema.Columns | prompting_utils.py:19 | the column count is the comma count plus one, and every column is stripped and free of commas |
| Schema.ColumnsOfJoin | prompting_utils.py:19 | one or more pieces without commas, joined with `,`, split back into those pieces, each stripped |
| Schema.EmptyBodyOneColumn | prompting_utils.py:19 | `t()` yields the single empty column name `[""]` |
| Schema.ParseLine | prompting_utils.py:13-19 | a blank line contributes nothing, and a parsed table has a non-empty word as its name |
| Schema.ParseLineTable | prompting_utils.py:13-19 | a line that is, up to surrounding whitespace, `name(body)` followed by anything, with `name` a non-empty word and `body` free of `)` and newlines, defines `name` with the stripped comma pieces of `body` |
| Schema.NoParenthesisNoTable | prompting_utils.py:13-17 | a line without `(` (a comment, prose) defines nothing |
| Schema.ReadSchema | prompting_utils.py:12-21 | every key is a non-empty word, and a file of lines that define nothing gives the empty map |
| Schema.ReadSchemaKeys | prompting_utils.py:12-21 | a table is in the schema exactly when some line defines it |
| Schema.Register | prompting_utils.py:17-20 | a parsed table sets its name's entry to its columns and adds no other key, every other entry is unchanged, and a line without a table changes nothing |
| Schema.BuildSchema | prompting_utils.py:12-20 | every parsed table's name is a key; `Schema.BuildKeys` gives the converse and `Schema.BuildLastWins` the values |
| Schema.BuildKeys | prompting_utils.py:12-20 | a name is a key exactly when some parsed line holds a table of that name |
| Schema.BuildLastWins | prompting_utils.py:20 | the entry for a name comes from the last parsed table with that name |
| Schema.ReadSchemaLastWins | prompting_utils.py:20 | the entry for a table is the one from the last line that defines it, and no later line redefines it |
| Schema.ReadSchemaIgnoresProse | prompting_utils.py:12-21 | a file with no `(` anywhere, such as only comments, blank lines and prose, gives the empty map without error |
| Schema.FormattedColumns | prompting_utils.py:19 | for a table with at least one column, each stripped and free of `,`, `)` and newlines, the columns written as `", ".join(cols)` read back as the same columns |
| Schema.ParseFormatted | prompting_utils.py:13-20 | a table whose name is a non-empty word, with at least one column, each stripped and free of `,`, `)` and newlines, written as `name(col, col, ...)` with or without its line break, reads back as the same table |
| Schema.ReadFormattedSchema | prompting_utils.py:12-21 | a file of tables written one per line reads back as exactly those tables, when the names are distinct non-empty words and every table has at least one column, each stripped and free of `,`, `)` and newlines, e.g. `orders(id, user_id, total)` and `users(id, name)` |
| Extract.FirstFenced | prompting_utils.py:30 | the leftmost position where the tag occurs with a fence after it; no earlier position qualifies, and none means no position does |
| Extract.SearchFenced | prompting_utils.py:30 | the group of the fenced search starts right after the leftmost tag that has a fence after it and ends at the first fence after that tag. None is returned exactly when no fenced match exists |
| Extract.FirstSelect | prompting_utils.py:34 | the leftmost position where `SELECT ` occurs with a `;` after it; no earlier position qualifies |
| Extract.SearchSelect | prompting_utils.py:34 | the group runs from the leftmost `SELECT ` that has a `;` after it through the first such `;`, with no `;` in between. None is returned exactly when no such span exists |
| Extract.Selected | prompting_utils.py:30-35 | the text the tiers choose is stripped and no longer than the response; which tier answers is pinned by `Extract.ExtractFencedTier`, `Extract.ExtractSelectTier` and `Extract.ExtractWholeTier` |
| Extract.Flatten | prompting_utils.py:36 | the result has no newline and no surrounding whitespace |
| Extract.FlattenFlat | prompting_utils.py:36 | text that is already one stripped line is left unchanged |
| Extract.ExtractSqlQuery | prompting_utils.py:23-37 | the result has no newline and no surrounding whitespace, and an empty or absent response gives `""` |
| Extract.ExtractFencedTier | prompting_utils.py:30-36 | given the leftmost tag with a fence after it and the first fence after that tag, the answer is that block's body, stripped and flattened, whatever `SELECT` spans occur elsewhere |
| Extract.ExtractSelectTier | prompting_utils.py:34-36 | with no fenced block, the answer is the leftmost `SELECT ` through the first `;` after it, with newlines turned into spaces. It starts with the keyword, ends with `;` and has no other `;` |
| Extract.ExtractWholeTier | prompting_utils.py:35-36 | with neither pattern present, the answer is the whole response stripped and flattened, and a single stripped line comes back unchanged |
| Extract.NoBackquoteNoFence | prompting_utils.py:30 | text without a backquote holds no fenced match |
| Extract.PlainResponse | prompting_utils.py:35-36 | a response with no backquote and no `;` is answered by the third tier, so `no sql here` comes back unchanged |
| Extract.FencedLayout | prompting_utils.py:30-36 | chatter without backquotes, then a `sql` block whose body has no backquotes, then anything: the answer is the block's body, stripped and flattened, even if the chatter contains a `SELECT ...;` |
| Extract.FencedRoundTrip | prompting_utils.py:30-36 | a statement on one line with no surrounding whitespace and no backquotes, written on its own line in a `sql` block after chatter without backquotes, is extracted exactly |
| Extract.SelectRoundTrip | prompting_utils.py:34-36 | a one-line `SELECT ...;` statement without backquotes (starting with the keyword and ending with its only `;`), followed by any text without backquotes, is extracted exactly |
| Scenarios.FencedExample | prompting_utils.py:30-36 | a fenced block holding `SELECT * FROM t;` yields `SELECT * FROM t;` |
| AsWritten.ReadSchemaAsWritten | prompting_utils.py:12-16 | as written, the loop either returns the empty map or raises `NameError` for `re` |
| AsWritten.ReadSchemaAsWrittenSucceeds | prompting_utils.py:12-16 | as written, `read_schema` returns exactly when every line is blank |
| AsWritten.ReadSchemaAsWrittenAgrees | prompting_utils.py:12-21 | whenever the code as written returns, it agrees with the corrected model |
| AsWritten.ReadSchemaDiscrepancy | prompting_utils.py:16 | any file that defines a table makes the code as written raise, where the corrected model records the table |
| AsWritten.ExtractSqlQueryAsWritten | prompting_utils.py:28-30 | as written, the call returns (with `""`) exactly for an empty or absent response, and raises `NameError` for `re` otherwise |
| AsWritten.ExtractSqlQueryDiscrepancy | prompting_utils.py:28-34 | where the code as written returns it agrees with the corrected model, and it raises on every non-empty response |

## Left out

- `main` (analyze_dataset.py:25-102): argument parsing, tokenizer loading, console output and the markdown report with `.2f` formatting. All of it is I/O and formatting. The label at analyze_dataset.py:94 is hard-coded instead of taken from the arguments; it is part of that report text.
- Opening and reading the files (analyze_dataset.py:8, prompting_utils.py:10-11): the model starts from the list `readlines()` returns. A missing file (`FileNotFoundError`) is not modelled.
- `save_logs` (prompting_utils.py:39-55): directory creation, file writing, `.4f` formatting and `json.dumps`. It is all I/O and float rendering. Like `re`, `json` is used there without an import.
- The T5 subword tokenizer: it is an arbitrary function. Properties that hold only for particular tokenizers are not stated. Two examples: a non-empty corpus having a vocabulary of at least one token, and a prefix never shortening a line.
- Number types: when `Corpus.MeanLength` is not a whole number, `statistics.mean` rounds it to the nearest float. When it is a whole number, `statistics.mean` returns it exactly as an `int`. The model keeps the exact rational and models neither the rounding nor the `int`/`float` distinction.
- Unicode regex semantics: `\w` is restricted to ASCII letters, digits and `_`. `IGNORECASE` folds ASCII letters only, so Python's extra folds (for example `ſ` with `s`) are not modelled.
- `str.isspace` is modelled as its fixed set of Unicode whitespace code points.
- Literal examples: the schema file `orders(id, user_id, total)` / `users(id, name)`, the file `# comment` / blank / `not a table def`, the response `Sure! SELECT id FROM users WHERE age > 18;` and the response `no sql here` are covered by the general lemmas `Schema.ReadFormattedSchema`, `Schema.ReadSchemaIgnoresProse`, `Extract.ExtractSelectTier` and `Extract.PlainResponse`. They are not restated for those literal strings.

## Findings

| source | as written | input that shows it | evidently intended | confidence | as-written member | corrected member |
|---|---|---|---|---|---|---|
| prompting_utils.py:16 | `read_schema` calls `re.match`, but the module imports only `os`, so the call raises `NameError` | a schema file containing the line `users(id, name)` | `import re`, so the line is parsed and `users` maps to `["id", "name"]` | not executed | AsWritten.ReadSchemaAsWritten, AsWritten.ReadSchemaDiscrepancy | Schema.ReadSchema |
| prompting_utils.py:30 | `extract_sql_query` calls `re.search` without `re` imported, so every non-empty response raises `NameError` | the response `SELECT 1;` | `import re`, so the statement is extracted | not executed | AsWritten.ExtractSqlQueryAsWritten, AsWritten.ExtractSqlQueryDiscrepancy | Extract.ExtractSqlQuery |

=== FILE: as_written.dfy ===
/** The two functions of prompting_utils.py exactly as the file stands.

    The file imports only `os`, yet `read_schema` calls `re.match` and
    `extract_sql_query` calls `re.search`. Python resolves `re` when the call
    is reached, so each function raises `NameError` the first time control
    gets there, and returns normally only on inputs that never reach it:
    a schema file whose every line is blank, or an empty or absent response.
    Modules Schema and Extract model the evident intent (with `re` imported);
    the lemmas here relate the two. */
module AsWritten {
  import opened Options
  import opened Text
  import Schema
  import Extract

  /** The exception a call can raise. */
  datatype PyError = NameError(name: string)

  /** `read_schema` as written: the loop skips blank lines and fails on the
      first line that reaches `re.match`. */
  function ReadSchemaAsWritten(lines: seq<string>): (r: Result<map<string, seq<string>>, PyError>)
    ensures r.Success? ==> r.value == map[]
    ensures r.Failure? ==> r.error == NameError("re")
  {
    if |lines| == 0 then Success(map[])
    else if Strip(lines[0]) == "" then ReadSchemaAsWritten(lines[1..])
    else Failure(NameError("re"))
  }

  /** As written, `read_schema` returns exactly when every line is blank. */
  lemma {:induction false} ReadSchemaAsWrittenSucceeds(lines: seq<string>)
    ensures ReadSchemaAsWritten(lines).Success? <==> forall k :: 0 <= k < |lines| ==> AllSpace(lines[k])
  {
    if |lines| > 0 {
      ReadSchemaAsWrittenSucceeds(lines[1..]);
      assert Strip(lines[0]) == "" <==> AllSpace(lines[0]);
      BlankLines(lines);
    }
  }

  /** Every line of a non-empty list is blank iff the first one is and every later one is. */
  lemma BlankLines(lines: seq<string>)
    requires |lines| > 0
    ensures (forall k :: 0 <= k < |lines| ==> AllSpace(lines[k]))
        <==> AllSpace(lines[0]) && forall k :: 0 <= k < |lines[1..]| ==> AllSpace(lines[1..][k])
  {
    var rest := lines[1..];
    if AllSpace(lines[0]) && forall k :: 0 <= k < |rest| ==> AllSpace(rest[k]) {
      forall k | 0 <= k < |lines| ensures AllSpace(lines[k]) {
        if k > 0 { assert lines[k] == rest[k - 1]; }
      }
    }
  }

  /** Where the file as written returns at all, it agrees with the corrected model. */
  lemma ReadSchemaAsWrittenAgrees(lines: seq<string>)
    requires ReadSchemaAsWritten(lines).Success?
    ensures ReadSchemaAsWritten(lines).value == Schema.ReadSchema(lines)
  {
    ReadSchemaAsWrittenSucceeds(lines);
  }

  /** The discrepancy: a schema file with any table definition makes the
      code as written raise, where the corrected model records the table. */
  lemma ReadSchemaDiscrepancy(lines: seq<string>, k: nat, name: string)
    requires k < |lines| && Schema.Defines(lines[k], name)
    ensures ReadSchemaAsWritten(lines) == Failure(NameError("re"))
    ensures name in Schema.ReadSchema(lines)
  {
    ReadSchemaAsWrittenSucceeds(lines);
    assert !AllSpace(lines[k]);
    Schema.ReadSchemaKeys(lines, name);
  }

  /** `extract_sql_query` as written: only the early return for an empty or
      absent response avoids `re.search`. */
  function ExtractSqlQueryAsWritten(response: Option<string>): (r: Result<string, PyError>)
    ensures r.Success? <==> response.None? || response == Some("")
    ensures r.Success? ==> r.value == ""
    ensures r.Failure? ==> r.error == NameError("re")
  {
    match response
    case None => Success("")
    case Some(s) => if s == "" then Success("") else Failure(NameError("re"))
  }

  /** Where the file as written returns, it agrees with the corrected model;
      on every other response it raises where the corrected model answers. */
  lemma ExtractSqlQueryDiscrepancy(response: Option<string>)
    ensures ExtractSqlQueryAsWritten(response).Success? ==>
      ExtractSqlQueryAsWritten(response).value == Extract.ExtractSqlQuery(response)
    ensures response.Some? && response.value != "" ==>
      ExtractSqlQueryAsWritten(response) == Failure(NameError("re"))
  {
  }
}

=== FILE: corpus.dfy ===
/** Corpus measurement of analyze_dataset.py: the blank-line filter of
    `read_lines` and the per-line length / vocabulary computation of
    `tokenize_len_and_vocab`.

    The subword tokenizer is an external collaborator; it enters every
    member as an uninterpreted total function `tok`. The mean length is
    kept exact, as the pair (total length, line count); `MeanLength` turns
    the pair into a rational. `statistics.mean` returns that value exactly
    as an `int` when it is a whole number, and otherwise rounds it to the
    nearest float. */
module Corpus {
  import opened Options
  import opened Text

  type Tokenizer = string -> seq<string>

  /** What `tokenize_len_and_vocab` measures: the sum and count behind the
      mean length, and the vocabulary size. */
  datatype Measurement = Measurement(totalLength: nat, lineCount: nat, vocabSize: nat)

  /** `mean(lens) if lens else 0.0`, as an exact rational. */
  function MeanLength(m: Measurement): (mean: real)
    ensures m.lineCount == 0 ==> mean == 0.0
  {
    if m.lineCount == 0 then 0.0 else m.totalLength as real / m.lineCount as real
  }

  function Min(a: int, b: int): int { if a <= b then a else b }

  function Max(a: int, b: int): int { if a <= b then b else a }

  // ---------------------------------------------------------------------------
  // read_lines
  // ---------------------------------------------------------------------------

  /** The list comprehension of `read_lines` over the raw lines of a file:
      every line stripped, lines that strip to nothing dropped. */
  function ReadLines(raw: seq<string>): (lines: seq<string>)
    ensures |lines| <= |raw|
  {
    if |raw| == 0 then [] else KeepLine(raw[0]) + ReadLines(raw[1..])
  }

  /** What one raw line contributes to `read_lines`: its stripped form, unless that is empty. */
  function KeepLine(ln: string): (r: seq<string>)
    ensures |r| <= 1
  {
    var t := Strip(ln);
    if t == "" then [] else [t]
  }

  /** Every line `read_lines` returns is non-empty and has no surrounding whitespace. */
  lemma {:induction false} ReadLinesClean(raw: seq<string>)
    ensures forall k :: 0 <= k < |ReadLines(raw)| ==> ReadLines(raw)[k] != "" && IsStripped(ReadLines(raw)[k])
  {
    if |raw| > 0 {
      ReadLinesClean(raw[1..]);
    }
  }

  /** `read_lines` works line by line: it distributes over concatenation. */
  lemma {:induction false} ReadLinesAppend(a: seq<string>, b: seq<string>)
    ensures ReadLines(a + b) == ReadLines(a) + ReadLines(b)
  {
    if |a| == 0 {
      assert a + b == b;
    } else {
      var h := KeepLine(a[0]);
      assert (a + b)[0] == a[0];
      assert (a + b)[1..] == a[1..] + b;
      ReadLinesAppend(a[1..], b);
      assert ReadLines(a + b) == h + (ReadLines(a[1..]) + ReadLines(b));
      assert h + (ReadLines(a[1..]) + ReadLines(b)) == (h + ReadLines(a[1..])) + ReadLines(b);
    }
  }

  /** The output holds exactly the stripped forms of the non-blank input lines. */
  lemma {:induction false} ReadLinesMembership(raw: seq<string>, x: string)
    ensures x in ReadLines(raw) <==> x != "" && exists k :: 0 <= k < |raw| && Strip(raw[k]) == x
  {
    if |raw| > 0 {
      var rest := raw[1..];
      var h := KeepLine(raw[0]);
      ReadLinesMembership(rest, x);
      assert x in h <==> x != "" && Strip(raw[0]) == x;
      if x in ReadLines(rest) {
        var k :| 0 <= k < |rest| && Strip(rest[k]) == x;
        assert raw[k + 1] == rest[k];
      }
      if x != "" && exists k :: 0 <= k < |raw| && Strip(raw[k]) == x {
        var k :| 0 <= k < |raw| && Strip(raw[k]) == x;
        if k > 0 {
          assert rest[k - 1] == raw[k];
        }
      }
    }
  }

  /** Reading an already clean corpus again changes nothing. */
  lemma {:induction false} ReadLinesIdempotent(raw: seq<string>)
    ensures ReadLines(ReadLines(raw)) == ReadLines(raw)
  {
    if |raw| > 0 {
      var ln := Strip(raw[0]);
      var head: seq<string> := if ln == "" then [] else [ln];
      ReadLinesAppend(head, ReadLines(raw[1..]));
      ReadLinesIdempotent(raw[1..]);
      if ln != "" {
        assert ReadLines(head) == [ln] by {
          assert head[1..] == [];
        }
      }
    }
  }

  // ---------------------------------------------------------------------------
  // tokenize_len_and_vocab
  // ---------------------------------------------------------------------------

  /** The stop index Python uses for `xs[:stop]` on a list of length `n`:
      a negative stop counts from the end, and the index is clamped to `[0, n]`. */
  function SliceStop(n: nat, stop: int): (k: nat)
    ensures k <= n
    ensures 0 <= stop ==> k == Min(n, stop)
    ensures stop < 0 ==> k == Max(0, n + stop)
  {
    if stop < 0 then (if n + stop < 0 then 0 else n + stop)
    else if stop > n then n
    else stop
  }

  /** `toks[:max_len]` when `max_len is not None`, otherwise `toks` itself. */
  function Truncate(toks: seq<string>, maxLen: Option<int>): (r: seq<string>)
    ensures r <= toks
    ensures maxLen.None? ==> r == toks
    ensures maxLen.Some? && 0 <= maxLen.value ==> |r| == Min(|toks|, maxLen.value)
    ensures maxLen.Some? && maxLen.value < 0 ==> |r| == Max(0, |toks| + maxLen.value)
  {
    match maxLen
    case None => toks
    case Some(m) => toks[..SliceStop(|toks|, m)]
  }

  /** `if add_prefix: s = add_prefix + s` — `None` and `""` are both falsy. */
  function ApplyPrefix(prefix: Option<string>, s: string): (r: string)
    ensures prefix.None? || prefix == Some("") ==> r == s
  {
    match prefix
    case Some(p) => if p != "" then p + s else s
    case None => s
  }

  /** The tokens a line contributes: prefixed, tokenized, then truncated. */
  function LineTokens(tok: Tokenizer, maxLen: Option<int>, prefix: Option<string>, s: string): seq<string>
  {
    Truncate(tok(ApplyPrefix(prefix, s)), maxLen)
  }

  /** The list `lens` the loop builds: one recorded length per line. */
  function Lengths(lines: seq<string>, tok: Tokenizer, maxLen: Option<int>, prefix: Option<string>): (lens: seq<nat>)
    ensures |lens| == |lines|
  {
    if |lines| == 0 then []
    else Lengths(lines[..|lines| - 1], tok, maxLen, prefix) + [|LineTokens(tok, maxLen, prefix, lines[|lines| - 1])|]
  }

  /** Each recorded length is that of the line's token list after truncation:
      never more than the tokenizer produced, exactly that without `max_len`,
      and `min(len, m)` with `max_len = m >= 0` (so `m = 0` records 0). */
  lemma {:induction false} LineLengths(lines: seq<string>, tok: Tokenizer, maxLen: Option<int>, prefix: Option<string>)
    ensures forall k :: 0 <= k < |lines| ==>
      Lengths(lines, tok, maxLen, prefix)[k] <= |tok(ApplyPrefix(prefix, lines[k]))|
    ensures maxLen.None? ==> forall k :: 0 <= k < |lines| ==>
      Lengths(lines, tok, maxLen, prefix)[k] == |tok(ApplyPrefix(prefix, lines[k]))|
    ensures maxLen.Some? && 0 <= maxLen.value ==> forall k :: 0 <= k < |lines| ==>
      Lengths(lines, tok, maxLen, prefix)[k] == Min(|tok(ApplyPrefix(prefix, lines[k]))|, maxLen.value)
  {
    if |lines| > 0 {
      var init := lines[..|lines| - 1];
      LineLengths(init, tok, maxLen, prefix);
      assert forall k :: 0 <= k < |init| ==> init[k] == lines[k];
    }
  }

  /** The distinct elements of a token list. */
  function Elements(toks: seq<string>): set<string>
  {
    set t | t in toks
  }

  /** The set `vocab` the loop accumulates with `vocab.update(toks)`. */
  function Vocab(lines: seq<string>, tok: Tokenizer, maxLen: Option<int>, prefix: Option<string>): (vocab: set<string>)
    ensures |lines| == 0 ==> vocab == {}
    ensures forall k :: 0 <= k < |lines| ==> Elements(LineTokens(tok, maxLen, prefix, lines[k])) <= vocab
  {
    if |lines| == 0 then {}
    else
      var init := lines[..|lines| - 1];
      assert forall k :: 0 <= k < |init| ==> init[k] == lines[k];
      Vocab(init, tok, maxLen, prefix) + Elements(LineTokens(tok, maxLen, prefix, lines[|lines| - 1]))
  }

  function Sum(xs: seq<nat>): nat
  {
    if |xs| == 0 then 0 else Sum(xs[..|xs| - 1]) + xs[|xs| - 1]
  }

  /** Reference definition of `tokenize_len_and_vocab(lines, tok, max_len, add_prefix)`. */
  function TokenizeLenAndVocab(lines: seq<string>, tok: Tokenizer, maxLen: Option<int>, prefix: Option<string>): (r: Measurement)
    ensures r.lineCount == |lines|
    ensures |lines| == 0 ==> r.totalLength == 0 && r.vocabSize == 0
    ensures r.vocabSize <= r.totalLength
  {
    var lens := Lengths(lines, tok, maxLen, prefix);
    VocabSizeBound(lines, tok, maxLen, prefix);
    Measurement(Sum(lens), |lens|, |Vocab(lines, tok, maxLen, prefix)|)
  }

  /** An empty corpus is not an error: mean 0.0 and an empty vocabulary. */
  lemma EmptyCorpus(tok: Tokenizer, maxLen: Option<int>, prefix: Option<string>)
    ensures MeanLength(TokenizeLenAndVocab([], tok, maxLen, prefix)) == 0.0
    ensures TokenizeLenAndVocab([], tok, maxLen, prefix).vocabSize == 0
  {
  }

  /** One length is recorded per line, and the mean times the number of
      lines is the total recorded length. */
  lemma MeanTimesLineCount(lines: seq<string>, tok: Tokenizer, maxLen: Option<int>, prefix: Option<string>)
    ensures var r := TokenizeLenAndVocab(lines, tok, maxLen, prefix);
      r.lineCount == |lines| && MeanLength(r) * r.lineCount as real == r.totalLength as real
  {
    MeanTimesCount(TokenizeLenAndVocab(lines, tok, maxLen, prefix));
  }

  /** Dividing a total by a non-zero count and multiplying back gives the total. */
  lemma MeanTimesCount(m: Measurement)
    requires m.lineCount == 0 ==> m.totalLength == 0
    ensures MeanLength(m) * m.lineCount as real == m.totalLength as real
  {
    if m.lineCount > 0 {
      DivBounds(m.totalLength as real, m.lineCount as real, m.totalLength as real);
    }
  }

  /** With `max_len = m >= 0` the mean length lies in `[0, m]`. */
  lemma MeanWithinMaxLen(lines: seq<string>, tok: Tokenizer, m: int, prefix: Option<string>)
    requires 0 <= m
    ensures 0.0 <= MeanLength(TokenizeLenAndVocab(lines, tok, Some(m), prefix)) <= m as real
  {
    var lens := Lengths(lines, tok, Some(m), prefix);
    LineLengths(lines, tok, Some(m), prefix);
    SumBound(lens, m);
    MeanAtMost(TokenizeLenAndVocab(lines, tok, Some(m), prefix), m);
  }

  /** The loop of `tokenize_len_and_vocab`, line by line. */
  method MeasureCorpus(lines: seq<string>, tok: Tokenizer, maxLen: Option<int>, prefix: Option<string>)
    returns (r: Measurement)
    ensures r == TokenizeLenAndVocab(lines, tok, maxLen, prefix)
  {
    var lens: seq<nat> := [];
    var vocab: set<string> := {};
    for i := 0 to |lines|
      invariant lens == Lengths(lines[..i], tok, maxLen, prefix)
      invariant vocab == Vocab(lines[..i], tok, maxLen, prefix)
    {
      var toks := TokenizeLine(lines[i], tok, maxLen, prefix);
      PrefixStep(lines, i, tok, maxLen, prefix);
      lens := lens + [|toks|];
      vocab := vocab + Elements(toks);
    }
    assert lines[..|lines|] == lines;
    r := Measurement(Sum(lens), |lens|, |vocab|);
  }

  /** Extending the processed prefix by line `i` appends that line's length
      and adds its tokens to the vocabulary. */
  lemma PrefixStep(lines: seq<string>, i: nat, tok: Tokenizer, maxLen: Option<int>, prefix: Option<string>)
    requires i < |lines|
    ensures Lengths(lines[..i + 1], tok, maxLen, prefix)
      == Lengths(lines[..i], tok, maxLen, prefix) + [|LineTokens(tok, maxLen, prefix, lines[i])|]
    ensures Vocab(lines[..i + 1], tok, maxLen, prefix)
      == Vocab(lines[..i], tok, maxLen, prefix) + Elements(LineTokens(tok, maxLen, prefix, lines[i]))
  {
    var done := lines[..i + 1];
    assert done[..i] == lines[..i] && done[i] == lines[i];
  }

  /** One iteration's token list: prefix (when truthy), tokenize, truncate (when given). */
  method TokenizeLine(line: string, tok: Tokenizer, maxLen: Option<int>, prefix: Option<string>)
    returns (toks: seq<string>)
    ensures toks <= tok(ApplyPrefix(prefix, line))
    ensures toks == LineTokens(tok, maxLen, prefix, line)
  {
    var s := line;
    if prefix.Some? && prefix.value != "" {
      s := prefix.value + s;
    }
    toks := tok(s);
    if maxLen.Some? {
      toks := toks[..SliceStop(|toks|, maxLen.value)];
    }
  }

  // ---------------------------------------------------------------------------
  // Properties
  // ---------------------------------------------------------------------------

  lemma {:induction false} SumBound(xs: seq<nat>, m: nat)
    requires forall k :: 0 <= k < |xs| ==> xs[k] <= m
    ensures Sum(xs) <= |xs| * m
  {
    if |xs| > 0 {
      SumBound(xs[..|xs| - 1], m);
    }
  }

  lemma MeanAtMost(r: Measurement, m: nat)
    requires r.totalLength <= r.lineCount * m
    ensures 0.0 <= MeanLength(r) <= m as real
  {
    if r.lineCount > 0 {
      var n := r.lineCount;
      assert (n * m) as real == n as real * m as real;
      DivBounds(r.totalLength as real, n as real, m as real);
    }
  }

  lemma DivBounds(a: real, n: real, m: real)
    requires 0.0 < n
    requires 0.0 <= a <= n * m
    ensures (a / n) * n == a
    ensures 0.0 <= a / n <= m
  {
  }

  lemma {:induction false} ElementsBound(toks: seq<string>)
    ensures |Elements(toks)| <= |toks|
  {
    if |toks| > 0 {
      var init := toks[..|toks| - 1];
      ElementsBound(init);
      assert Elements(toks) == Elements(init) + {toks[|toks| - 1]};
    }
  }

  /** A token is in the vocabulary exactly when some line's (truncated) token list holds it. */
  lemma {:induction false} VocabMembership(lines: seq<string>, tok: Tokenizer, maxLen: Option<int>, prefix: Option<string>, t: string)
    ensures t in Vocab(lines, tok, maxLen, prefix) <==>
      exists k :: 0 <= k < |lines| && t in LineTokens(tok, maxLen, prefix, lines[k])
  {
    if |lines| > 0 {
      var n := |lines|;
      var init := lines[..n - 1];
      VocabMembership(init, tok, maxLen, prefix, t);
      if t in Vocab(lines, tok, maxLen, prefix) {
        if t in Vocab(init, tok, maxLen, prefix) {
          var k :| 0 <= k < |init| && t in LineTokens(tok, maxLen, prefix, init[k]);
          assert lines[k] == init[k];
        } else {
          assert t in LineTokens(tok, maxLen, prefix, lines[n - 1]);
        }
      }
      if exists k :: 0 <= k < n && t in LineTokens(tok, maxLen, prefix, lines[k]) {
        var k :| 0 <= k < n && t in LineTokens(tok, maxLen, prefix, lines[k]);
        if k < n - 1 {
          assert init[k] == lines[k];
        }
      }
    }
  }

  /** Vocabulary size is at most the total number of recorded tokens. */
  lemma {:induction false} VocabSizeBound(lines: seq<string>, tok: Tokenizer, maxLen: Option<int>, prefix: Option<string>)
    ensures |Vocab(lines, tok, maxLen, prefix)| <= Sum(Lengths(lines, tok, maxLen, prefix))
  {
    if |lines| > 0 {
      var init := lines[..|lines| - 1];
      VocabSizeBound(init, tok, maxLen, prefix);
      var lens := Lengths(lines, tok, maxLen, prefix);
      assert lens[..|lens| - 1] == Lengths(init, tok, maxLen, prefix);
      ElementsBound(LineTokens(tok, maxLen, prefix, lines[|lines| - 1]));
    }
  }

  /** Truncation keeps a prefix of each token list, so it can only shrink the vocabulary. */
  lemma {:induction false} TruncationShrinksVocab(lines: seq<string>, tok: Tokenizer, m: int, prefix: Option<string>)
    ensures Vocab(lines, tok, Some(m), prefix) <= Vocab(lines, tok, None, prefix)
  {
    if |lines| > 0 {
      TruncationShrinksVocab(lines[..|lines| - 1], tok, m, prefix);
      var s := lines[|lines| - 1];
      assert Elements(LineTokens(tok, Some(m), prefix, s)) <= Elements(LineTokens(tok, None, prefix, s)) by {
        var full := LineTokens(tok, None, prefix, s);
        var cut := LineTokens(tok, Some(m), prefix, s);
        forall t | t in cut ensures t in full {
          var k :| 0 <= k < |cut| && cut[k] == t;
          assert full[k] == t;
        }
      }
    }
  }

  lemma {:induction false} SumMonotone(xs: seq<nat>, ys: seq<nat>)
    requires |xs| == |ys|
    requires forall k :: 0 <= k < |xs| ==> xs[k] <= ys[k]
    ensures Sum(xs) <= Sum(ys)
  {
    if |xs| > 0 {
      SumMonotone(xs[..|xs| - 1], ys[..|ys| - 1]);
    }
  }

  /** Preprocessing by truncation never raises the mean length or the vocabulary size. */
  lemma TruncationShrinksMeasurement(lines: seq<string>, tok: Tokenizer, m: int, prefix: Option<string>)
    ensures TokenizeLenAndVocab(lines, tok, Some(m), prefix).totalLength <= TokenizeLenAndVocab(lines, tok, None, prefix).totalLength
    ensures MeanLength(TokenizeLenAndVocab(lines, tok, Some(m), prefix)) <= MeanLength(TokenizeLenAndVocab(lines, tok, None, prefix))
    ensures TokenizeLenAndVocab(lines, tok, Some(m), prefix).vocabSize <= TokenizeLenAndVocab(lines, tok, None, prefix).vocabSize
  {
    var cut := Lengths(lines, tok, Some(m), prefix);
    var full := Lengths(lines, tok, None, prefix);
    LineLengths(lines, tok, Some(m), prefix);
    LineLengths(lines, tok, None, prefix);
    SumMonotone(cut, full);
    TruncationShrinksVocab(lines, tok, m, prefix);
    CardinalityMonotone(Vocab(lines, tok, Some(m), prefix), Vocab(lines, tok, None, prefix));
    if |lines| > 0 {
      DivMonotone(Sum(cut) as real, Sum(full) as real, |lines| as real);
    }
  }

  lemma DivMonotone(a: real, b: real, n: real)
    requires 0.0 < n && a <= b
    ensures a / n <= b / n
  {
  }

  lemma CardinalityMonotone<T>(a: set<T>, b: set<T>)
    requires a <= b
    ensures |a| <= |b|
  {
    assert b == a + (b - a);
  }

  /** `max_len=0` is honoured (the test is `is not None`): every length is 0 and no token is seen. */
  lemma {:induction false} ZeroMaxLen(lines: seq<string>, tok: Tokenizer, prefix: Option<string>)
    ensures TokenizeLenAndVocab(lines, tok, Some(0), prefix) == Measurement(0, |lines|, 0)
  {
    if |lines| > 0 {
      ZeroMaxLen(lines[..|lines| - 1], tok, prefix);
      assert Sum(Lengths(lines, tok, Some(0), prefix)) == 0 by {
        LineLengths(lines, tok, Some(0), prefix);
        SumBound(Lengths(lines, tok, Some(0), prefix), 0);
      }
    }
  }

  /** An empty prefix is falsy, so it behaves exactly as no prefix at all. */
  lemma EmptyPrefixIsNoPrefix(lines: seq<string>, tok: Tokenizer, maxLen: Option<int>)
    ensures TokenizeLenAndVocab(lines, tok, maxLen, Some("")) == TokenizeLenAndVocab(lines, tok, maxLen, None)
  {
    EmptyPrefixLines(lines, tok, maxLen);
  }

  lemma {:induction false} EmptyPrefixLines(lines: seq<string>, tok: Tokenizer, maxLen: Option<int>)
    ensures Lengths(lines, tok, maxLen, Some("")) == Lengths(lines, tok, maxLen, None)
    ensures Vocab(lines, tok, maxLen, Some("")) == Vocab(lines, tok, maxLen, None)
  {
    if |lines| > 0 {
      EmptyPrefixLines(lines[..|lines| - 1], tok, maxLen);
    }
  }
}

=== FILE: extract.dfy ===
/** `extract_sql_query` of prompting_utils.py: picking a SQL statement out
    of a model response.

    Three tiers, tried in order, the first that matches wins:
      1. the body of the first fenced block tagged `sql`
         (`re.search(r"```sql(.*?)```", response, re.DOTALL | re.IGNORECASE)`);
      2. otherwise the first `SELECT ...;` span
         (`re.search(r"(SELECT .*?;)", response, re.DOTALL | re.IGNORECASE)`);
      3. otherwise the whole response.
    The selection is stripped, every `\n` becomes a space, and the result is
    stripped again. An empty or absent response gives "" without searching.

    The two regular expressions are modelled as the searches they perform:
    the leftmost start position at which the pattern can match, with each
    lazy `.*?` stopping at the first occurrence of what follows it. Case is
    ignored for ASCII letters only.

    prompting_utils.py imports only `os`, so as written `re.search` raises
    `NameError` for every non-empty response (see module AsWritten). This
    module models the evident intent: that `re` is imported. */
module Extract {
  import opened Options
  import opened Text

  const SqlTag: string := "```sql"
  const Fence: string := "```"
  const SelectKeyword: string := "SELECT "

  /** A regex match in the response: where the match starts, and the
      bounds `[lo, hi)` of its group 1. */
  datatype Span = Span(start: nat, lo: nat, hi: nat)

  /** Some fence occurs at or after position `p`. */
  ghost predicate FenceFrom(s: string, p: nat) {
    exists e :: p <= e && MatchesAt(s, e, Fence)
  }

  /** The fenced-block pattern can match starting at position `t`. */
  ghost predicate FencedAt(s: string, t: nat) {
    MatchesAt(s, t, SqlTag) && FenceFrom(s, t + |SqlTag|)
  }

  /** Some `;` occurs at or after position `p`. */
  ghost predicate SemicolonFrom(s: string, p: nat) {
    p <= |s| && ';' in s[p..]
  }

  /** The `SELECT .*?;` pattern can match starting at position `p`. */
  ghost predicate SelectAt(s: string, p: nat) {
    MatchesAt(s, p, SelectKeyword) && SemicolonFrom(s, p + |SelectKeyword|)
  }

  /** The leftmost position at or after `i` where the fenced pattern can match. */
  function FirstFenced(s: string, i: nat): (t: Option<nat>)
    decreases |s| - i
    ensures t.Some? ==> i <= t.value && MatchesAt(s, t.value, SqlTag)
    ensures t.Some? ==> FindFrom(s, t.value + |SqlTag|, Fence).Some?
    ensures t.Some? ==> forall q :: i <= q < t.value ==> !FencedAt(s, q)
    ensures t.None? ==> forall q :: i <= q ==> !FencedAt(s, q)
  {
    if i + |SqlTag| > |s| then None
    else
      FencedAtByFind(s, i);
      if MatchesAt(s, i, SqlTag) && FindFrom(s, i + |SqlTag|, Fence).Some? then Some(i)
      else FirstFenced(s, i + 1)
  }

  /** `re.search(r"```sql(.*?)```", s[i..], DOTALL | IGNORECASE)`: the span of
      group 1 for the leftmost start at or after `i`; the lazy body ends at
      the first fence after the tag. */
  function SearchFenced(s: string, i: nat): (m: Option<Span>)
    ensures m.Some? ==> i <= m.value.start && m.value.lo == m.value.start + |SqlTag| <= m.value.hi
    ensures m.Some? ==> MatchesAt(s, m.value.start, SqlTag) && MatchesAt(s, m.value.hi, Fence)
    ensures m.Some? ==> forall k :: m.value.lo <= k < m.value.hi ==> !MatchesAt(s, k, Fence)
    ensures m.Some? ==> forall t :: i <= t < m.value.start ==> !FencedAt(s, t)
    ensures m.None? <==> forall t :: i <= t ==> !FencedAt(s, t)
  {
    match FirstFenced(s, i)
    case None => None
    case Some(t) =>
      FencedAtByFind(s, t);
      Some(Span(t, t + |SqlTag|, FindFrom(s, t + |SqlTag|, Fence).value))
  }

  /** The fenced pattern matches at `t` exactly when the tag is there and a fence follows it. */
  lemma FencedAtByFind(s: string, t: nat)
    ensures FencedAt(s, t) <==> MatchesAt(s, t, SqlTag) && FindFrom(s, t + |SqlTag|, Fence).Some?
  {
    if FindFrom(s, t + |SqlTag|, Fence).Some? {
      assert MatchesAt(s, FindFrom(s, t + |SqlTag|, Fence).value, Fence);
    }
  }

  /** The select pattern matches at `p` exactly when the keyword is there and a `;` follows it. */
  lemma SelectAtByIndex(s: string, p: nat)
    ensures SelectAt(s, p) <==> MatchesAt(s, p, SelectKeyword) && IndexOfFrom(s, p + |SelectKeyword|, ';').Some?
  {
    if IndexOfFrom(s, p + |SelectKeyword|, ';').Some? {
      assert s[IndexOfFrom(s, p + |SelectKeyword|, ';').value] == ';';
    }
  }

  /** The leftmost position at or after `i` where the select pattern can match. */
  function FirstSelect(s: string, i: nat): (p: Option<nat>)
    decreases |s| - i
    ensures p.Some? ==> i <= p.value && MatchesAt(s, p.value, SelectKeyword)
    ensures p.Some? ==> IndexOfFrom(s, p.value + |SelectKeyword|, ';').Some?
    ensures p.Some? ==> forall q :: i <= q < p.value ==> !SelectAt(s, q)
    ensures p.None? ==> forall q :: i <= q ==> !SelectAt(s, q)
  {
    if i + |SelectKeyword| > |s| then None
    else
      SelectAtByIndex(s, i);
      if MatchesAt(s, i, SelectKeyword) && IndexOfFrom(s, i + |SelectKeyword|, ';').Some? then Some(i)
      else FirstSelect(s, i + 1)
  }

  /** `re.search(r"(SELECT .*?;)", s[i..], DOTALL | IGNORECASE)`: the span of
      group 1 for the leftmost start at or after `i`; it ends just after the
      first `;` that follows the keyword. */
  function SearchSelect(s: string, i: nat): (m: Option<Span>)
    ensures m.Some? ==> i <= m.value.start == m.value.lo && m.value.lo + |SelectKeyword| < m.value.hi <= |s|
    ensures m.Some? ==> MatchesAt(s, m.value.lo, SelectKeyword) && s[m.value.hi - 1] == ';'
    ensures m.Some? ==> forall k :: m.value.lo + |SelectKeyword| <= k < m.value.hi - 1 ==> s[k] != ';'
    ensures m.Some? ==> forall p :: i <= p < m.value.start ==> !SelectAt(s, p)
    ensures m.None? <==> forall p :: i <= p ==> !SelectAt(s, p)
  {
    match FirstSelect(s, i)
    case None => None
    case Some(p) =>
      SelectAtByIndex(s, p);
      Some(Span(p, p, IndexOfFrom(s, p + |SelectKeyword|, ';').value + 1))
  }

  /** The text chosen by the three tiers, before newlines are flattened. */
  function Selected(s: string): (r: string)
    ensures IsStripped(r) && |r| <= |s|
  {
    match SearchFenced(s, 0)
    case Some(b) => Strip(s[b.lo..b.hi])
    case None =>
      match SearchSelect(s, 0)
      case Some(q) => Strip(s[q.lo..q.hi])
      case None => Strip(s)
  }

  /** `sql.replace("\n", " ").strip()`. */
  function Flatten(sql: string): (r: string)
    ensures '\n' !in r
    ensures IsStripped(r)
  {
    var flat := ReplaceChar(sql, '\n', ' ');
    StripKeeps(flat, '\n');
    Strip(flat)
  }

  /** `extract_sql_query(response)`; `None` stands for an absent response. */
  function ExtractSqlQuery(response: Option<string>): (r: string)
    ensures '\n' !in r
    ensures IsStripped(r)
    ensures response.None? || response == Some("") ==> r == ""
  {
    match response
    case None => ""
    case Some(s) => if s == "" then "" else Flatten(Selected(s))
  }

  /** Replacing newlines and stripping leaves text that is already flat untouched. */
  lemma FlattenFlat(sql: string)
    requires '\n' !in sql && IsStripped(sql)
    ensures Flatten(sql) == sql
  {
  }

  /** The leftmost fenced match, pinned down by its start. */
  lemma FirstFencedIs(s: string, t: nat)
    requires FencedAt(s, t)
    requires forall q :: 0 <= q < t ==> !FencedAt(s, q)
    ensures FirstFenced(s, 0) == Some(t)
  {
    var v := FirstFenced(s, 0);
    assert v.Some?;
    FencedAtByFind(s, v.value);
    assert v.value == t;
  }

  /** The leftmost select match, pinned down by its start. */
  lemma FirstSelectIs(s: string, p: nat)
    requires SelectAt(s, p)
    requires forall q :: 0 <= q < p ==> !SelectAt(s, q)
    ensures FirstSelect(s, 0) == Some(p)
  {
    var v := FirstSelect(s, 0);
    assert v.Some?;
    SelectAtByIndex(s, v.value);
    assert v.value == p;
  }

  /** Tier 1: when the leftmost `sql`-tagged fence opens at `t` and the first
      fence after the tag is at `e`, the answer is that block's body, whatever
      SELECT statements occur elsewhere in the response. */
  lemma ExtractFencedTier(s: string, t: nat, e: nat)
    requires MatchesAt(s, t, SqlTag) && t + |SqlTag| <= e && MatchesAt(s, e, Fence)
    requires forall k :: t + |SqlTag| <= k < e ==> !MatchesAt(s, k, Fence)
    requires forall q :: 0 <= q < t ==> !FencedAt(s, q)
    ensures ExtractSqlQuery(Some(s)) == Flatten(Strip(s[t + |SqlTag|..e]))
  {
    assert FenceFrom(s, t + |SqlTag|);
    FirstFencedIs(s, t);
    FindFromIs(s, t + |SqlTag|, Fence, e);
    assert SearchFenced(s, 0) == Some(Span(t, t + |SqlTag|, e));
    assert s != "";
  }

  /** The shape of a tier-2 answer: it opens with the keyword (any case) and
      its only `;` is its last character. */
  predicate SelectStatement(r: string) {
    MatchesAt(r, 0, SelectKeyword) && |SelectKeyword| < |r| && r[|r| - 1] == ';'
    && forall k :: 0 <= k < |r| - 1 ==> r[k] != ';'
  }

  /** Text matching the keyword has no `;` and no newline in the keyword's place. */
  lemma KeywordChars(r: string, k: nat)
    requires MatchesAt(r, 0, SelectKeyword) && k < |SelectKeyword|
    ensures r[k] != ';' && r[k] != '\n' && (k == 0 ==> !IsSpace(r[k]))
  {
    var head := r[..|SelectKeyword|];
    assert EqualsIgnoreCase(head[k], SelectKeyword[k]);
    FoldKeepsControl(r[k], SelectKeyword[k]);
  }

  /** Replacing newlines by spaces keeps a keyword match in place. */
  lemma KeywordSurvivesFlatten(span: string)
    requires MatchesAt(span, 0, SelectKeyword)
    ensures MatchesAt(ReplaceChar(span, '\n', ' '), 0, SelectKeyword)
  {
    var flat := ReplaceChar(span, '\n', ' ');
    var head := span[..|SelectKeyword|];
    var fhead := flat[..|SelectKeyword|];
    forall k | 0 <= k < |SelectKeyword|
      ensures EqualsIgnoreCase(fhead[k], SelectKeyword[k])
    {
      KeywordChars(span, k);
      assert fhead[k] == head[k];
    }
  }

  /** A tier-2 span is already stripped, so flattening only replaces its
      newlines, and what comes out still has the tier-2 shape. */
  lemma SelectSpanFlat(span: string)
    requires MatchesAt(span, 0, SelectKeyword) && |SelectKeyword| < |span| && span[|span| - 1] == ';'
    requires forall k :: |SelectKeyword| <= k < |span| - 1 ==> span[k] != ';'
    ensures Flatten(Strip(span)) == ReplaceChar(span, '\n', ' ')
    ensures SelectStatement(ReplaceChar(span, '\n', ' '))
  {
    KeywordChars(span, 0);
    assert IsStripped(span);
    var flat := ReplaceChar(span, '\n', ' ');
    assert flat[0] == span[0];
    assert IsStripped(flat);
    KeywordSurvivesFlatten(span);
    forall k | 0 <= k < |flat| - 1
      ensures flat[k] != ';'
    {
      if k < |SelectKeyword| {
        KeywordChars(span, k);
      }
    }
  }

  /** The leftmost select match and the first `;` after its keyword give the span `re.search` reports. */
  lemma SearchSelectIs(s: string, p: nat, j: nat)
    requires MatchesAt(s, p, SelectKeyword) && p + |SelectKeyword| <= j < |s| && s[j] == ';'
    requires forall k :: p + |SelectKeyword| <= k < j ==> s[k] != ';'
    requires forall q :: 0 <= q < p ==> !SelectAt(s, q)
    ensures SearchSelect(s, 0) == Some(Span(p, p, j + 1))
  {
    assert SemicolonFrom(s, p + |SelectKeyword|);
    FirstSelectIs(s, p);
    IndexOfFromIs(s, p + |SelectKeyword|, ';', j);
    SearchSelectOf(s, p, j);
  }

  /** The tier-2 span, given its start and the first `;` after the keyword. */
  lemma {:induction false} SearchSelectOf(s: string, p: nat, j: nat)
    requires FirstSelect(s, 0) == Some(p)
    requires IndexOfFrom(s, p + |SelectKeyword|, ';') == Some(j)
    ensures SearchSelect(s, 0) == Some(Span(p, p, j + 1))
  {
    assert SearchSelect(s, 0).Some? && SearchSelect(s, 0).value.lo == p;
    assert SearchSelect(s, 0).value.hi == j + 1;
  }

  /** With no fenced block, tier 2 selects the span of the select match. */
  lemma SelectedBySelect(s: string, p: nat, j: nat)
    requires s != ""
    requires SearchFenced(s, 0).None?
    requires SearchSelect(s, 0) == Some(Span(p, p, j + 1))
    ensures ExtractSqlQuery(Some(s)) == Flatten(Strip(s[p..j + 1]))
  {
  }

  /** No fenced match anywhere means the fenced search reports none. */
  lemma NoFencedBlock(s: string)
    requires forall t :: 0 <= t ==> !FencedAt(s, t)
    ensures SearchFenced(s, 0).None?
  {
  }

  /** Tier 2: with no fenced block, the leftmost `SELECT ` at `p` and the first
      `;` after it at `j` give the answer: that span with newlines turned into
      spaces, which opens with the keyword and whose only `;` is the last
      character. */
  lemma ExtractSelectTier(s: string, p: nat, j: nat)
    requires forall t :: 0 <= t ==> !FencedAt(s, t)
    requires MatchesAt(s, p, SelectKeyword) && p + |SelectKeyword| <= j < |s| && s[j] == ';'
    requires forall k :: p + |SelectKeyword| <= k < j ==> s[k] != ';'
    requires forall q :: 0 <= q < p ==> !SelectAt(s, q)
    ensures ExtractSqlQuery(Some(s)) == ReplaceChar(s[p..j + 1], '\n', ' ')
    ensures SelectStatement(ExtractSqlQuery(Some(s)))
  {
    NoFencedBlock(s);
    SearchSelectIs(s, p, j);
    SelectSpanOf(s, p, j);
    SelectedBySelect(s, p, j);
  }

  /** The tier-2 span of `s`, from the keyword at `p` to the first `;` at `j`, has the span shape. */
  lemma SelectSpanOf(s: string, p: nat, j: nat)
    requires MatchesAt(s, p, SelectKeyword) && p + |SelectKeyword| <= j < |s| && s[j] == ';'
    requires forall k :: p + |SelectKeyword| <= k < j ==> s[k] != ';'
    ensures s != ""
    ensures Flatten(Strip(s[p..j + 1])) == ReplaceChar(s[p..j + 1], '\n', ' ')
    ensures SelectStatement(ReplaceChar(s[p..j + 1], '\n', ' '))
  {
    var span := s[p..j + 1];
    MatchesAtSlice(s, p, SelectKeyword, j + 1);
    assert forall k :: |SelectKeyword| <= k < |span| - 1 ==> span[k] == s[p + k];
    SelectSpanFlat(span);
  }

  /** Tier 3: when neither pattern matches anywhere, the answer is the whole
      response, stripped and flattened; a response that is already a single
      stripped line comes back unchanged. */
  lemma ExtractWholeTier(s: string)
    requires s != ""
    requires forall t :: 0 <= t ==> !FencedAt(s, t)
    requires forall q :: 0 <= q ==> !SelectAt(s, q)
    ensures ExtractSqlQuery(Some(s)) == Flatten(Strip(s))
    ensures '\n' !in s && IsStripped(s) ==> ExtractSqlQuery(Some(s)) == s
  {
    assert SearchFenced(s, 0).None?;
    assert SearchSelect(s, 0).None?;
    if '\n' !in s && IsStripped(s) {
      StripKeeps(s, '\n');
      FlattenFlat(s);
    }
  }

  /** A pattern that opens with a backquote cannot match where there is none. */
  lemma NoBackquoteNoMatch(s: string, k: nat, pat: string)
    requires |pat| > 0 && pat[0] == '`'
    requires k < |s| ==> s[k] != '`'
    ensures !MatchesAt(s, k, pat)
  {
    if MatchesAt(s, k, pat) {
      assert EqualsIgnoreCase(s[k..k + |pat|][0], pat[0]);
      FoldNonLetter(s[k], '`');
    }
  }

  /** Text without a backquote holds no fenced block. */
  lemma NoBackquoteNoFence(s: string)
    requires '`' !in s
    ensures forall t :: 0 <= t ==> !FencedAt(s, t)
  {
    forall t | 0 <= t
      ensures !MatchesAt(s, t, SqlTag)
    {
      NoBackquoteNoMatch(s, t, SqlTag);
    }
  }

  /** Text without a `;` holds no select statement. */
  lemma NoSemicolonNoSelect(s: string)
    requires ';' !in s
    ensures forall q :: 0 <= q ==> !SelectAt(s, q)
  {
  }

  /** Text with neither a backquote nor a `;` is answered by tier 3; a single
      stripped line of it comes back unchanged. */
  lemma PlainResponse(s: string)
    requires s != "" && '`' !in s && ';' !in s
    ensures ExtractSqlQuery(Some(s)) == Flatten(Strip(s))
    ensures '\n' !in s && IsStripped(s) ==> ExtractSqlQuery(Some(s)) == s
  {
    NoBackquoteNoFence(s);
    NoSemicolonNoSelect(s);
    ExtractWholeTier(s);
  }

  /** A response laid out as chatter, a `sql` block and anything after it
      is answered with the block's body, stripped and flattened, provided
      neither the chatter nor the body holds a backquote. */
  lemma FencedLayout(pre: string, body: string, post: string)
    requires '`' !in pre && '`' !in body
    ensures ExtractSqlQuery(Some(pre + SqlTag + body + Fence + post)) == Flatten(Strip(body))
  {
    var s := pre + SqlTag + body + Fence + post;
    var t := |pre|;
    var e := t + |SqlTag| + |body|;
    assert s[t..t + |SqlTag|] == SqlTag;
    assert s[e..e + |Fence|] == Fence;
    assert s[t + |SqlTag|..e] == body;
    forall k | t + |SqlTag| <= k < e
      ensures !MatchesAt(s, k, Fence)
    {
      assert s[k] == body[k - t - |SqlTag|];
      NoBackquoteNoMatch(s, k, Fence);
    }
    forall q | 0 <= q < t
      ensures !FencedAt(s, q)
    {
      assert s[q] == pre[q];
      NoBackquoteNoMatch(s, q, SqlTag);
    }
    ExtractFencedTier(s, t, e);
  }

  /** A line between two line breaks strips to itself. */
  lemma StripBetweenBreaks(sql: string)
    requires IsStripped(sql)
    ensures Strip("\n" + sql + "\n") == sql
  {
    var body := "\n" + sql + "\n";
    assert body[1..1 + |sql|] == sql && body[..1] == "\n" && body[1 + |sql|..] == "\n";
    StripUnique(body, 1, 1 + |sql|);
  }

  /** Round trip through a fenced block: a one-line statement with no
      backquote and no surrounding whitespace, written on its own line in a
      `sql` block after any chatter without backquotes and before anything
      at all, is extracted exactly. */
  lemma FencedRoundTrip(pre: string, sql: string, post: string)
    requires '`' !in pre && '`' !in sql && '\n' !in sql && IsStripped(sql)
    ensures ExtractSqlQuery(Some(pre + SqlTag + "\n" + sql + "\n" + Fence + post)) == sql
  {
    var body := "\n" + sql + "\n";
    assert pre + SqlTag + "\n" + sql + "\n" + Fence + post == pre + SqlTag + body + Fence + post;
    assert '`' !in body;
    FencedLayout(pre, body, post);
    StripBetweenBreaks(sql);
    FlattenFlat(sql);
  }

  /** Round trip through tier 2: a one-line statement of the tier-2 shape,
      followed by any text without backquotes, is extracted exactly. */
  lemma SelectRoundTrip(q: string, post: string)
    requires SelectStatement(q) && '`' !in q && '`' !in post && '\n' !in q
    ensures ExtractSqlQuery(Some(q + post)) == q
  {
    var s := q + post;
    SelectPrefix(q, post);
    NoBackquoteNoFence(s);
    ExtractSelectTier(s, 0, |q| - 1);
  }

  /** A statement of the tier-2 shape at the front of a backquote-free
      response is a tier-2 span of that response, starting at position 0. */
  lemma SelectPrefix(q: string, post: string)
    requires SelectStatement(q) && '`' !in q && '`' !in post
    ensures '`' !in q + post
    ensures MatchesAt(q + post, 0, SelectKeyword)
    ensures |SelectKeyword| <= |q| - 1 < |q + post| && (q + post)[|q| - 1] == ';'
    ensures forall k :: |SelectKeyword| <= k < |q| - 1 ==> (q + post)[k] != ';'
    ensures (q + post)[0..|q|] == q
  {
    var s := q + post;
    assert s[..|q|] == q;
    assert s[0..|SelectKeyword|] == q[0..|SelectKeyword|];
  }
}

=== FILE: options.dfy ===
/** `Option` stands for Python's `None`-or-value, `Result` for a value or a
    raised exception. */
module Options {

  datatype Option<+T> = None | Some(value: T)

  datatype Result<+T, +E> = Success(value: T) | Failure(error: E)
}

=== FILE: scenarios.dfy ===
/** A worked example: a bare fenced statement through `ExtractSqlQuery`. */
module Scenarios {
  import opened Options
  import opened Text
  import opened Extract

  /** A bare fenced statement comes out without its fence and line breaks. */
  lemma FencedExample()
    ensures ExtractSqlQuery(Some("```sql\nSELECT * FROM t;\n```")) == "SELECT * FROM t;"
  {
    var sql := "SELECT * FROM t;";
    assert "```sql\nSELECT * FROM t;\n```" == "" + SqlTag + "\n" + sql + "\n" + Fence + "";
    FencedRoundTrip("", sql, "");
  }
}

=== FILE: schema.dfy ===
/** `read_schema` of prompting_utils.py, over the lines of a schema file.

    Each line is stripped; a blank line is skipped; otherwise the line is
    tried against `re.match(r'(\w+)\((.*?)\)', line)` and, when that
    matches, the table named by group 1 gets the columns obtained by
    splitting group 2 on `,` and stripping each piece. A line that does not
    match is skipped silently, and a later line for the same table name
    replaces the earlier entry.

    prompting_utils.py imports only `os`, so as written `re.match` raises
    `NameError` on the first non-blank line (see module AsWritten). This
    module models the evident intent: that `re` is imported. */
module Schema {
  import opened Options
  import opened Text

  /** One parsed line: a table name and its ordered column names. */
  datatype Table = Table(name: string, columns: seq<string>)

  /** The two groups of a successful `re.match(r'(\w+)\((.*?)\)', line)`. */
  datatype Header = Header(name: string, body: string)

  /** Length of the run of word characters starting at position `i`. */
  function WordRunFrom(s: string, i: nat): (n: nat)
    requires i <= |s|
    decreases |s| - i
    ensures i + n <= |s|
    ensures forall k :: i <= k < i + n ==> IsWordChar(s[k])
    ensures i + n < |s| ==> !IsWordChar(s[i + n])
  {
    if i == |s| || !IsWordChar(s[i]) then 0 else 1 + WordRunFrom(s, i + 1)
  }

  /** `re.match(r'(\w+)\((.*?)\)', line)`. The regex is anchored at the start.
      `\w+` is greedy and `(` is not a word character, so the only run that can
      be followed by `(` is the maximal one. The lazy `.*?` then stops at the
      first `)`; since `.` does not match a newline, a `\n` before that `)`
      makes the whole match fail. Text after the `)` is ignored. */
  function MatchHeader(line: string): (h: Option<Header>)
    ensures h.Some? ==> h.value.name != "" && AllWord(h.value.name)
    ensures h.Some? ==> ')' !in h.value.body && '\n' !in h.value.body
    ensures h.Some? ==>
      var n := |h.value.name| + |h.value.body| + 2;
      n <= |line| && line[..n] == h.value.name + "(" + h.value.body + ")"
  {
    var n := WordRunFrom(line, 0);
    if n == 0 || n == |line| || line[n] != '(' then None
    else
      match IndexOfFrom(line, n + 1, ')')
      case None => None
      case Some(j) =>
        if '\n' in line[n + 1..j] then None
        else
          var name, body := line[..n], line[n + 1..j];
          assert ')' !in body by {
            forall k | 0 <= k < |body| ensures body[k] != ')' { assert body[k] == line[n + 1 + k]; }
          }
          assert line[..j + 1] == name + "(" + body + ")";
          Some(Header(name, body))
  }

  /** Completeness: every line of the shape `name(body)rest`, with `name` a
      non-empty word and `body` free of `)` and newlines, is matched with
      exactly those groups. */
  lemma MatchHeaderComplete(line: string, name: string, body: string, rest: string)
    requires line == name + "(" + body + ")" + rest
    requires name != "" && AllWord(name)
    requires ')' !in body && '\n' !in body
    ensures MatchHeader(line) == Some(Header(name, body))
  {
    var n := |name|;
    assert forall k :: 0 <= k < n ==> line[k] == name[k];
    assert line[n] == '(';
    assert WordRunFrom(line, 0) == n;
    var j := n + 1 + |body|;
    assert line[j] == ')';
    assert line[n + 1..j] == body;
    assert forall k :: n + 1 <= k < j ==> line[k] == body[k - n - 1];
    assert IndexOfFrom(line, n + 1, ')') == Some(j);
    assert line[..n] == name;
  }

  /** `[col.strip() for col in body.split(',')]`. */
  function Columns(body: string): (cols: seq<string>)
    ensures |cols| == multiset(body)[','] + 1
    ensures forall k :: 0 <= k < |cols| ==> IsStripped(cols[k]) && ',' !in cols[k]
  {
    var pieces := Split(body, ',');
    SplitCount(body, ',');
    forall k | 0 <= k < |pieces| ensures ',' !in Strip(pieces[k]) {
      StripKeeps(pieces[k], ',');
    }
    seq(|pieces|, k requires 0 <= k < |pieces| => Strip(pieces[k]))
  }

  /** The column list of a body is its comma-separated pieces, each stripped. */
  lemma ColumnsOfJoin(pieces: seq<string>)
    requires |pieces| >= 1
    requires forall k :: 0 <= k < |pieces| ==> ',' !in pieces[k]
    ensures |Columns(Join(pieces, ','))| == |pieces|
    ensures forall k :: 0 <= k < |pieces| ==> Columns(Join(pieces, ','))[k] == Strip(pieces[k])
  {
    SplitJoin(pieces, ',');
  }

  /** What one raw line of the schema file contributes, if anything. */
  function ParseLine(raw: string): (t: Option<Table>)
    ensures AllSpace(raw) ==> t.None?
    ensures t.Some? ==> t.value.name != "" && AllWord(t.value.name)
  {
    var line := Strip(raw);
    if line == "" then None
    else
      match MatchHeader(line)
      case None => None
      case Some(h) => Some(Table(h.name, Columns(h.body)))
  }

  /** Completeness of one line: a line that is, up to surrounding whitespace,
      `name(body)` followed by anything, defines table `name` with the
      stripped comma-separated pieces of `body` as its columns. */
  lemma ParseLineTable(raw: string, i: nat, j: nat, name: string, body: string, rest: string)
    requires i <= j <= |raw| && AllSpace(raw[..i]) && AllSpace(raw[j..])
    requires raw[i..j] == name + "(" + body + ")" + rest && (rest == [] || !IsSpace(rest[|rest| - 1]))
    requires name != "" && AllWord(name)
    requires ')' !in body && '\n' !in body
    ensures ParseLine(raw) == Some(Table(name, Columns(body)))
  {
    var line := raw[i..j];
    assert line[0] == name[0];
    assert IsWordChar(name[0]);
    StripUnique(raw, i, j);
    MatchHeaderComplete(line, name, body, rest);
  }

  /** The pieces of `", ".join(cols)` between commas: every column after the
      first carries the space that follows its comma. */
  function Spaced(cols: seq<string>): (pieces: seq<string>)
    ensures |pieces| == |cols|
    ensures forall k :: 0 <= k < |cols| && IsStripped(cols[k]) ==> Strip(pieces[k]) == cols[k]
  {
    var pieces := seq(|cols|, k requires 0 <= k < |cols| => if k == 0 then cols[k] else " " + cols[k]);
    assert forall k :: 1 <= k < |cols| && IsStripped(cols[k]) ==> Strip(pieces[k]) == cols[k] by {
      forall k | 1 <= k < |cols| && IsStripped(cols[k]) ensures Strip(pieces[k]) == cols[k] {
        StripAfterSpace(cols[k]);
      }
    }
    pieces
  }

  /** A table written as a schema line, `name(col, col, ...)`. */
  function FormatTable(t: Table): string {
    t.name + "(" + Join(Spaced(t.columns), ',') + ")"
  }

  /** A table that can be written in the schema format and read back: a word
      for a name, and at least one column, each free of surrounding whitespace
      and of the characters that delimit columns, the header and lines. */
  predicate Writable(t: Table) {
    && t.name != "" && AllWord(t.name) && |t.columns| >= 1
    && forall k :: 0 <= k < |t.columns| ==>
         IsStripped(t.columns[k]) && ',' !in t.columns[k] && ')' !in t.columns[k] && '\n' !in t.columns[k]
  }

  /** The columns of a writable table, joined as the schema format does,
      split back into the same columns. */
  lemma FormattedColumns(t: Table)
    requires Writable(t)
    ensures Columns(Join(Spaced(t.columns), ',')) == t.columns
    ensures ')' !in Join(Spaced(t.columns), ',') && '\n' !in Join(Spaced(t.columns), ',')
  {
    var pieces := Spaced(t.columns);
    forall k | 0 <= k < |pieces|
      ensures ',' !in pieces[k] && ')' !in pieces[k] && '\n' !in pieces[k]
    {
      assert k > 0 ==> pieces[k] == " " + t.columns[k];
    }
    JoinExcludes(pieces, ',', ')');
    JoinExcludes(pieces, ',', '\n');
    ColumnsOfJoin(pieces);
  }

  /** Round trip: reading back a written table line, with or without its
      line break, gives the table. */
  lemma ParseFormatted(t: Table)
    requires Writable(t)
    ensures ParseLine(FormatTable(t)) == Some(t)
    ensures ParseLine(FormatTable(t) + "\n") == Some(t)
  {
    FormattedColumns(t);
    var body := Join(Spaced(t.columns), ',');
    var line := FormatTable(t);
    assert line == t.name + "(" + body + ")" + "";
    ParseLineIn(line, line, t.name, body);
    var raw := line + "\n";
    assert raw[|line|..] == "\n";
    ParseLineIn(raw, line, t.name, body);
  }

  /** `ParseLineTable` for a header that fills the line up to trailing whitespace. */
  lemma ParseLineIn(raw: string, line: string, name: string, body: string)
    requires |line| <= |raw| && raw[..|line|] == line && AllSpace(raw[|line|..])
    requires line == name + "(" + body + ")" + ""
    requires name != "" && AllWord(name) && ')' !in body && '\n' !in body
    ensures ParseLine(raw) == Some(Table(name, Columns(body)))
  {
    assert raw[0..|line|] == line;
    ParseLineTable(raw, 0, |line|, name, body, "");
  }

  /** One step of the loop: a parsed table replaces any earlier entry of that name. */
  function Register(schema: map<string, seq<string>>, t: Option<Table>): (r: map<string, seq<string>>)
    ensures t.None? ==> r == schema
    ensures t.Some? ==> r.Keys == schema.Keys + {t.value.name} && r[t.value.name] == t.value.columns
    ensures forall name :: name in schema && (t.None? || name != t.value.name) ==> name in r && r[name] == schema[name]
  {
    match t
    case None => schema
    case Some(t) => schema[t.name := t.columns]
  }

  /** The loop of `read_schema` over already parsed lines, in order. */
  function BuildSchema(parsed: seq<Option<Table>>): (schema: map<string, seq<string>>)
    ensures forall k :: 0 <= k < |parsed| && parsed[k].Some? ==> parsed[k].value.name in schema
  {
    if |parsed| == 0 then map[]
    else
      var init := parsed[..|parsed| - 1];
      assert forall k :: 0 <= k < |init| ==> init[k] == parsed[k];
      Register(BuildSchema(init), parsed[|parsed| - 1])
  }

  /** `read_schema` over the lines of the file. */
  function ReadSchema(lines: seq<string>): (schema: map<string, seq<string>>)
    ensures forall name :: name in schema ==> name != "" && AllWord(name)
    ensures (forall k :: 0 <= k < |lines| ==> ParseLine(lines[k]).None?) ==> schema == map[]
  {
    BuildKeys(ParseAll(lines));
    BuildSchema(ParseAll(lines))
  }

  /** Every line parsed on its own. */
  function ParseAll(lines: seq<string>): (parsed: seq<Option<Table>>)
    ensures |parsed| == |lines|
    ensures forall k :: 0 <= k < |lines| ==> parsed[k] == ParseLine(lines[k])
  {
    seq(|lines|, k requires 0 <= k < |lines| => ParseLine(lines[k]))
  }

  /** The line defines (or redefines) table `name`. */
  predicate Defines(raw: string, name: string) {
    ParseLine(raw).Some? && ParseLine(raw).value.name == name
  }

  /** The keys of the built map are exactly the names of the parsed tables. */
  lemma {:induction false} BuildKeys(parsed: seq<Option<Table>>)
    ensures forall name :: name in BuildSchema(parsed) <==>
      exists k :: 0 <= k < |parsed| && parsed[k].Some? && parsed[k].value.name == name
  {
    if |parsed| > 0 {
      var n := |parsed|;
      var init := parsed[..n - 1];
      BuildKeys(init);
      forall name
        ensures name in BuildSchema(parsed) <==>
          exists k :: 0 <= k < n && parsed[k].Some? && parsed[k].value.name == name
      {
        if name in BuildSchema(init) {
          var k :| 0 <= k < |init| && init[k].Some? && init[k].value.name == name;
          assert parsed[k] == init[k];
        }
        if exists k :: 0 <= k < n && parsed[k].Some? && parsed[k].value.name == name {
          var k :| 0 <= k < n && parsed[k].Some? && parsed[k].value.name == name;
          if k < n - 1 {
            assert init[k] == parsed[k];
          }
        }
      }
    }
  }

  /** The entry for a name comes from the last parsed table with that name. */
  lemma {:induction false} BuildLastWins(parsed: seq<Option<Table>>, name: string) returns (k: nat)
    requires name in BuildSchema(parsed)
    ensures k < |parsed|
    ensures parsed[k] == Some(Table(name, BuildSchema(parsed)[name]))
    ensures forall j :: k < j < |parsed| ==> !(parsed[j].Some? && parsed[j].value.name == name)
  {
    var n := |parsed|;
    var init := parsed[..n - 1];
    if parsed[n - 1].Some? && parsed[n - 1].value.name == name {
      k := n - 1;
    } else {
      k := BuildLastWins(init, name);
      assert parsed[k] == init[k];
      assert forall j :: k < j < n - 1 ==> parsed[j] == init[j];
    }
  }

  /** A table is in the schema exactly when some line defines it. */
  lemma ReadSchemaKeys(lines: seq<string>, name: string)
    ensures name in ReadSchema(lines) <==> exists k :: 0 <= k < |lines| && Defines(lines[k], name)
  {
    BuildKeys(ParseAll(lines));
  }

  /** The entry for a table comes from the LAST line that defines it. */
  lemma ReadSchemaLastWins(lines: seq<string>, name: string) returns (k: nat)
    requires name in ReadSchema(lines)
    ensures k < |lines|
    ensures ParseLine(lines[k]) == Some(Table(name, ReadSchema(lines)[name]))
    ensures forall j :: k < j < |lines| ==> !Defines(lines[j], name)
  {
    k := BuildLastWins(ParseAll(lines), name);
  }

  /** A schema file written one table per line. */
  function FormatSchema(ts: seq<Table>): (lines: seq<string>)
    ensures |lines| == |ts|
  {
    seq(|ts|, k requires 0 <= k < |ts| => FormatTable(ts[k]) + "\n")
  }

  /** Round trip for a whole file: reading back the written tables, with
      distinct names, gives exactly those tables. */
  lemma ReadFormattedSchema(ts: seq<Table>)
    requires forall k :: 0 <= k < |ts| ==> Writable(ts[k])
    requires forall i, j :: 0 <= i < j < |ts| ==> ts[i].name != ts[j].name
    ensures forall name :: name in ReadSchema(FormatSchema(ts)) <==> exists k :: 0 <= k < |ts| && ts[k].name == name
    ensures forall k :: 0 <= k < |ts| ==> ReadSchema(FormatSchema(ts))[ts[k].name] == ts[k].columns
  {
    var lines := FormatSchema(ts);
    forall k | 0 <= k < |ts|
      ensures ParseLine(lines[k]) == Some(ts[k])
    {
      ParseFormatted(ts[k]);
    }
    forall name
      ensures name in ReadSchema(lines) <==> exists k :: 0 <= k < |ts| && ts[k].name == name
    {
      ReadSchemaKeys(lines, name);
      if exists k :: 0 <= k < |ts| && ts[k].name == name {
        var k :| 0 <= k < |ts| && ts[k].name == name;
        assert Defines(lines[k], name);
      }
    }
    forall k | 0 <= k < |ts|
      ensures ReadSchema(lines)[ts[k].name] == ts[k].columns
    {
      var name := ts[k].name;
      assert Defines(lines[k], name);
      ReadSchemaKeys(lines, name);
      var w := ReadSchemaLastWins(lines, name);
      assert ts[w].name == name;
      assert w == k;
    }
  }

  /** A line without `(` defines nothing: comments and prose are skipped. */
  lemma NoParenthesisNoTable(raw: string)
    requires '(' !in raw
    ensures ParseLine(raw).None?
  {
    StripKeeps(raw, '(');
  }

  /** A file in which no line has a `(` gives the empty schema, without error. */
  lemma ReadSchemaIgnoresProse(lines: seq<string>)
    requires forall k :: 0 <= k < |lines| ==> '(' !in lines[k]
    ensures ReadSchema(lines) == map[]
  {
    forall k | 0 <= k < |lines|
      ensures ParseLine(lines[k]).None?
    {
      NoParenthesisNoTable(lines[k]);
    }
  }

  /** `t()` defines a table with one column whose name is empty, since
      `"".split(",")` is `[""]`. */
  lemma EmptyBodyOneColumn()
    ensures Columns("") == [""]
  {
    ColumnsOfJoin([""]);
    assert Join([""], ',') == "";
  }
}

=== FILE: text.dfy ===
/** Python `str` operations the two scripts rely on, written over
    `string` (= `seq<char>`, one element per Unicode scalar value). */
module Text {
  import opened Options

  /** Python's `str.isspace()`: the characters `str.strip()` removes. */
  predicate IsSpace(c: char) {
    || ('\t' <= c <= '\r')
    || ('\U{1C}' <= c <= '\U{1F}')
    || c == ' '
    || c == '\U{85}'
    || c == '\U{A0}'
    || c == '\U{1680}'
    || ('\U{2000}' <= c <= '\U{200A}')
    || c == '\U{2028}'
    || c == '\U{2029}'
    || c == '\U{202F}'
    || c == '\U{205F}'
    || c == '\U{3000}'
  }

  /** The regex class `\w`, restricted to ASCII. */
  predicate IsWordChar(c: char) {
    ('a' <= c <= 'z') || ('A' <= c <= 'Z') || ('0' <= c <= '9') || c == '_'
  }

  predicate AllSpace(s: string) {
    forall k :: 0 <= k < |s| ==> IsSpace(s[k])
  }

  predicate AllWord(s: string) {
    forall k :: 0 <= k < |s| ==> IsWordChar(s[k])
  }

  /** A string `strip()` leaves unchanged: no whitespace at either end. */
  predicate IsStripped(s: string) {
    s == [] || (!IsSpace(s[0]) && !IsSpace(s[|s| - 1]))
  }

  /** Number of whitespace characters at the front of `s`. */
  function LeadingSpaces(s: string): (n: nat)
    ensures n <= |s|
    ensures AllSpace(s[..n])
    ensures n < |s| ==> !IsSpace(s[n])
  {
    if |s| == 0 || !IsSpace(s[0]) then 0
    else
      var n := 1 + LeadingSpaces(s[1..]);
      assert forall k :: 1 <= k < n ==> s[k] == s[1..][k - 1];
      n
  }

  /** Number of whitespace characters at the back of `s`. */
  function TrailingSpaces(s: string): (n: nat)
    ensures n <= |s|
    ensures AllSpace(s[|s| - n..])
    ensures n < |s| ==> !IsSpace(s[|s| - 1 - n])
  {
    if |s| == 0 || !IsSpace(s[|s| - 1]) then 0
    else
      var m := TrailingSpaces(s[..|s| - 1]);
      TrailingStep(s, m);
      m + 1
  }

  /** One more whitespace character at the back extends the trailing run. */
  lemma TrailingStep(s: string, m: nat)
    requires 0 < |s| && IsSpace(s[|s| - 1]) && m < |s|
    requires AllSpace(s[..|s| - 1][|s| - 1 - m..])
    requires m < |s| - 1 ==> !IsSpace(s[..|s| - 1][|s| - 2 - m])
    ensures AllSpace(s[|s| - (m + 1)..])
    ensures m + 1 < |s| ==> !IsSpace(s[|s| - 2 - m])
  {
    var init := s[..|s| - 1];
    var tail := s[|s| - (m + 1)..];
    forall k | 0 <= k < |tail| ensures IsSpace(tail[k]) {
      if k < m {
        assert tail[k] == init[|s| - 1 - m..][k];
      }
    }
    if m + 1 < |s| {
      assert s[|s| - 2 - m] == init[|s| - 2 - m];
    }
  }

  /** Python's `s.strip()`. */
  function Strip(s: string): (r: string)
    ensures IsStripped(r)
    ensures |r| <= |s|
    ensures r == [] <==> AllSpace(s)
    ensures IsStripped(s) ==> r == s
  {
    var a := LeadingSpaces(s);
    var t := s[a..];
    var b := TrailingSpaces(t);
    var r := t[..|t| - b];
    assert AllSpace(s) <==> a == |s| by {
      if a == |s| {
        assert s[..a] == s;
      }
    }
    r
  }

  /** `Strip` keeps exactly the middle of `s`: what it drops at each end is whitespace. */
  lemma StripIsTrim(s: string) returns (i: nat, j: nat)
    ensures i <= j <= |s|
    ensures Strip(s) == s[i..j]
    ensures AllSpace(s[..i]) && AllSpace(s[j..])
  {
    var a := LeadingSpaces(s);
    var t := s[a..];
    var b := TrailingSpaces(t);
    i, j := a, |s| - b;
    assert Strip(s) == t[..|t| - b];
    assert s[j..] == t[|t| - b..];
    assert t[..|t| - b] == s[i..j];
  }

  /** Uniqueness: any trim of whitespace ends that leaves a stripped middle is `Strip`. */
  lemma StripUnique(s: string, i: nat, j: nat)
    requires i <= j <= |s|
    requires AllSpace(s[..i]) && AllSpace(s[j..])
    requires IsStripped(s[i..j])
    ensures Strip(s) == s[i..j]
  {
    var i', j' := StripIsTrim(s);
    SpacePrefix(s, i);
    SpaceSuffix(s, j);
    SpacePrefix(s, i');
    SpaceSuffix(s, j');
    if i < j {
      assert s[i..j][0] == s[i] && s[i..j][j - i - 1] == s[j - 1];
      assert !AllSpace(s);
      assert i' < j';
      assert s[i'..j'][0] == s[i'] && s[i'..j'][j' - i' - 1] == s[j' - 1];
      assert i == i' && j == j';
    }
  }

  lemma SpacePrefix(s: string, i: nat)
    requires i <= |s| && AllSpace(s[..i])
    ensures forall k :: 0 <= k < i ==> IsSpace(s[k])
  {
    assert forall k :: 0 <= k < i ==> s[..i][k] == s[k];
  }

  lemma SpaceSuffix(s: string, j: nat)
    requires j <= |s| && AllSpace(s[j..])
    ensures forall k :: j <= k < |s| ==> IsSpace(s[k])
  {
    assert forall k :: j <= k < |s| ==> s[j..][k - j] == s[k];
  }

  /** Stripping never introduces a character. */
  lemma StripKeeps(s: string, c: char)
    requires c !in s
    ensures c !in Strip(s)
  {
    var i, j := StripIsTrim(s);
    assert forall k :: 0 <= k < j - i ==> s[i..j][k] == s[i + k];
  }

  /** Python's `s.replace(old, new)` for single characters. */
  function ReplaceChar(s: string, from: char, to: char): (r: string)
    ensures |r| == |s|
    ensures from != to ==> from !in r
    ensures forall k :: 0 <= k < |s| && s[k] != from ==> r[k] == s[k]
    ensures forall k :: 0 <= k < |s| && s[k] == from ==> r[k] == to
    ensures from !in s ==> r == s
  {
    seq(|s|, k requires 0 <= k < |s| => if s[k] == from then to else s[k])
  }

  /** First index `j >= i` with `s[j] == c`, like `s.find(c, i)`. */
  function IndexOfFrom(s: string, i: nat, c: char): (r: Option<nat>)
    decreases |s| - i
    ensures r.Some? ==> i <= r.value < |s| && s[r.value] == c
    ensures r.Some? ==> forall k :: i <= k < r.value ==> s[k] != c
    ensures r.None? ==> forall k :: i <= k < |s| ==> s[k] != c
  {
    if i >= |s| then None
    else if s[i] == c then Some(i)
    else IndexOfFrom(s, i + 1, c)
  }

  /** Python's `s.split(sep)` for a one-character separator. */
  function Split(s: string, sep: char): (pieces: seq<string>)
    decreases |s|
    ensures |pieces| >= 1
    ensures forall k :: 0 <= k < |pieces| ==> sep !in pieces[k]
    ensures Join(pieces, sep) == s
  {
    match IndexOfFrom(s, 0, sep)
    case None =>
      [s]
    case Some(j) =>
      var head, tail := s[..j], s[j + 1..];
      assert s == head + [sep] + tail;
      [head] + Split(tail, sep)
  }

  /** `s.split(sep)` has one more piece than `s` has separators. */
  lemma {:induction false} SplitCount(s: string, sep: char)
    decreases |s|
    ensures |Split(s, sep)| == multiset(s)[sep] + 1
  {
    match IndexOfFrom(s, 0, sep)
    case None =>
    case Some(j) =>
      var head, tail := s[..j], s[j + 1..];
      assert s == head + [sep] + tail;
      assert multiset(s) == multiset(head) + multiset{sep} + multiset(tail);
      SplitCount(tail, sep);
  }

  /** Python's `sep.join(pieces)`. */
  function Join(pieces: seq<string>, sep: char): string
  {
    if |pieces| == 0 then ""
    else if |pieces| == 1 then pieces[0]
    else pieces[0] + [sep] + Join(pieces[1..], sep)
  }

  /** Splitting inverts joining: pieces free of the separator come back unchanged. */
  lemma {:induction false} SplitJoin(pieces: seq<string>, sep: char)
    requires |pieces| >= 1
    requires forall k :: 0 <= k < |pieces| ==> sep !in pieces[k]
    ensures Split(Join(pieces, sep), sep) == pieces
  {
    var s := Join(pieces, sep);
    var p := pieces[0];
    if |pieces| > 1 {
      var rest := pieces[1..];
      SplitJoin(rest, sep);
      assert s == p + [sep] + Join(rest, sep);
      assert forall k :: 0 <= k < |p| ==> s[k] == p[k] && p[k] != sep;
      assert s[|p|] == sep;
      var r := IndexOfFrom(s, 0, sep);
      assert r.Some? && r.value >= |p|;
      assert r == Some(|p|);
      assert s[..|p|] == p;
      assert s[|p| + 1..] == Join(rest, sep);
    }
  }

  /** ASCII-only lower-casing, the folding used by the `IGNORECASE` patterns. */
  function LowerAscii(c: char): char {
    if 'A' <= c <= 'Z' then (c as int + 32) as char else c
  }

  predicate EqualsIgnoreCase(c: char, d: char) {
    LowerAscii(c) == LowerAscii(d)
  }

  /** The literal `pat` occurs at position `i` of `s`, letters compared case-insensitively. */
  predicate MatchesAt(s: string, i: nat, pat: string) {
    i + |pat| <= |s| && SameIgnoringCase(s[i..i + |pat|], pat)
  }

  /** Two strings of equal length that agree letter by letter up to ASCII case. */
  predicate SameIgnoringCase(a: string, b: string) {
    |a| == |b| && forall k :: 0 <= k < |a| ==> EqualsIgnoreCase(a[k], b[k])
  }

  /** Leftmost position `j >= i` where `pat` occurs in `s` (case-insensitively). */
  function FindFrom(s: string, i: nat, pat: string): (r: Option<nat>)
    decreases |s| - i
    ensures r.Some? ==> i <= r.value && MatchesAt(s, r.value, pat)
    ensures r.Some? ==> forall k :: i <= k < r.value ==> !MatchesAt(s, k, pat)
    ensures r.None? ==> forall k :: i <= k ==> !MatchesAt(s, k, pat)
  {
    if i + |pat| > |s| then None
    else if MatchesAt(s, i, pat) then Some(i)
    else FindFrom(s, i + 1, pat)
  }

  /** A position that matches `pat` with none before it from `i` on is what `FindFrom` returns. */
  lemma FindFromIs(s: string, i: nat, pat: string, e: nat)
    requires i <= e && MatchesAt(s, e, pat)
    requires forall k :: i <= k < e ==> !MatchesAt(s, k, pat)
    ensures FindFrom(s, i, pat) == Some(e)
  {
    var r := FindFrom(s, i, pat);
    assert r.Some?;
    assert r.value == e;
  }

  /** A `c` with none before it from `i` on is what `IndexOfFrom` returns. */
  lemma IndexOfFromIs(s: string, i: nat, c: char, j: nat)
    requires i <= j < |s| && s[j] == c
    requires forall k :: i <= k < j ==> s[k] != c
    ensures IndexOfFrom(s, i, c) == Some(j)
  {
    var r := IndexOfFrom(s, i, c);
    assert r.Some?;
    assert r.value == j;
  }

  /** Case folding never turns another character into a newline or a space. */
  lemma FoldKeepsControl(c: char, d: char)
    requires EqualsIgnoreCase(c, d)
    ensures c == '\n' <==> d == '\n'
    ensures IsSpace(c) <==> IsSpace(d)
  {
  }

  /** A match inside a slice is a match of the slice at the corresponding offset. */
  lemma MatchesAtSlice(s: string, p: nat, pat: string, q: nat)
    requires MatchesAt(s, p, pat) && p + |pat| <= q <= |s|
    ensures MatchesAt(s[p..q], 0, pat)
  {
    assert s[p..q][..|pat|] == s[p..p + |pat|];
  }

  /** Case folding only pairs letters: a character equal up to case to a
      non-letter is that very character. */
  lemma FoldNonLetter(c: char, d: char)
    requires EqualsIgnoreCase(c, d)
    requires !('A' <= d <= 'Z') && !('a' <= d <= 'z')
    ensures c == d
  {
  }

  /** A character that is neither `sep` nor in any piece is not in their join. */
  lemma {:induction false} JoinExcludes(pieces: seq<string>, sep: char, c: char)
    requires c != sep
    requires forall k :: 0 <= k < |pieces| ==> c !in pieces[k]
    ensures c !in Join(pieces, sep)
  {
    if |pieces| > 1 {
      JoinExcludes(pieces[1..], sep, c);
    }
  }

  /** Stripping a space put in front of stripped text gives the text back. */
  lemma StripAfterSpace(c: string)
    requires IsStripped(c)
    ensures Strip(" " + c) == c
  {
    var s := " " + c;
    assert s[..1] == " ";
    assert s[1..|s|] == c;
    assert s[|s|..] == [];
    StripUnique(s, 1, |s|);
  }
}
